=== FILE: README.md ===
# PixFlowTools core, modelled in Dafny

PixFlowTools is a single-page browser application that offers image and PDF tools (image to
PDF, resizer, PDF compressor, background remover, ...). Almost all of `script.js` is DOM wiring
and calls into jsPDF, pdf-lib and OpenCV. This project models the four pieces of pure logic
inside it:

- **Page fitting** (`convertImagesToPDF`): each image is scaled to the page width, rescaled to
  the page height if it would overflow, and centred; one page per image, in order.
  Module `PageFit`.
- **Resize dimensions** (`resizeImage`): percentage mode, explicit dimensions with an optional
  aspect-ratio lock, and preset mode, for which the code computes no size. Module `Resize`.
- **Single-flight executor** (`processTool`, `handleFiles`, `loadTool`): the state
  `{currentTool, currentFiles, isProcessing}`. A run is refused while busy or without files.
  Otherwise the busy flag is raised. The process button is then looked up outside the `try`
  (script.js:388-391). If the button is missing, reading its label throws and the flag stays raised
  for good. If it is present, the transform runs and `finally` lowers the flag, whether the
  transform completes or throws. `convertPDFToImages` and `compressImage` are dispatched to
  but never defined, so those two tools always end in the failure alert. Module `Executor`.
  It has two levels: whole calls (`ProcessTool`, `HandleFiles`) and an event-level `Session`
  in which a suspended transform is awaited while further user events arrive.
- **PDF compress bookkeeping** (`compressPDF`): the metadata strip and the reduction
  percentage. Module `Compress`.

`Controls` models the `element?.value || fallback` idiom the code uses to read form controls.
`Geometry` (geometry.dfy) holds the shared `Size` record.

Arithmetic is exact `real` arithmetic in place of JavaScript doubles. IEEE-754 rounding is not
modelled. Where the browser divides by zero, the model states the result explicitly
(`Resize.RatioExceeds`, `Compress.Reduction`).

Two facts about the code shape the model:
- Percentage mode does not round (script.js:471-473).
- The page-size, orientation and margin controls are read, or offered, but never passed to
  `new jsPDF()` (script.js:427-430). Every page therefore has jsPDF's default size. The page
  size is a parameter of `PageFit.FitToPage`.

## Model

| member | source | states |
|---|---|---|
| PageFit.FitToPage | script.js:439-451 | the placed image is positive and within the page on both axes, touches the page width or height, keeps the image's proportions, and has equal margins on opposite sides |
| PageFit.FitIsLargest | script.js:442-448 | no uniformly scaled copy of the image that fits the page is wider or taller than the placement |
| PageFit.FitIsBestFit | script.js:442-451 | a placement is the computed one exactly when it keeps proportions, fits, touches an edge and is centred (both directions) |
| PageFit.SameSizeWhenTouching | script.js:442-451 | two placements that both keep proportions, fit, touch an edge and are centred are equal |
| PageFit.LayoutDocument | script.js:432-455 | one placement per image, in input order, each the best fit on the page |
| PageFit.LandscapeOnPortraitPage | script.js:442-451 | a 1000 x 500 image on a 595 x 842 page is drawn 595 x 297.5 at (0, 272.25) |
| Resize.ScaleBy | script.js:470-473 | percentage mode multiplies both sides by exactly percent/100, unrounded, keeping proportions |
| Resize.RatioExceeds | script.js:480 | `w / h > aspect` as the browser evaluates it for positive, negative and zero heights (+Infinity, -Infinity or NaN) |
| Resize.LockAspect | script.js:478-485 | the locked size keeps the image's proportions; the height is kept when the requested ratio exceeds the image's, the width otherwise; for positive requests neither side exceeds its request |
| Resize.Dimensions | script.js:474-486 | unlocked, the requested width and height pass through unchanged; locked, the lock's guarantees hold, including which side is kept |
| Resize.ComputeSize | script.js:467-486 | a size exists exactly in percentage and dimensions modes; preset mode yields none; percentage mode scales exactly; dimensions mode passes requests through, or keeps proportions and the requested height when the requested ratio exceeds the image's, the requested width otherwise; absent controls fall back to percentage, 100, 800 and 600 |
| Resize.ComputeSizeLockedIsPageFit | script.js:474-486 | locked dimensions mode with positive requests gives the page-fit size of the image in the requested box |
| Resize.PercentageIgnoresDimensionControls | script.js:467-473 | in percentage mode the width, height and lock controls do not affect the result |
| Resize.DefaultsKeepSize | script.js:467-473 | with every control absent the output size equals the image size |
| Resize.ScaleRoundTrip | script.js:470-473 | scaling by p then q percent with p * q == 10000 restores the original size |
| Resize.LockedIsPageFit | script.js:478-485 | the aspect lock gives the same size as fitting the image onto a page of the requested size |
| Executor.Dispatch | script.js:394-412 | a transform is dispatched only from its own tool identifier; no tool, no transform |
| Executor.UndefinedToolsAlwaysFail | script.js:406-417 | a run of the PDF-to-images or image-compressor tool always raises the failure alert |
| Executor.DispatchFindsEveryTransform | script.js:394-412 | each transform is reached from exactly one identifier |
| Executor.Begin | script.js:385-391 | a run is refused exactly when busy or without files; it is stranded exactly when allowed but the process button is missing; otherwise the flag is raised, the tool dispatched, and nothing else changes |
| Executor.Finish | script.js:415-422 | the busy flag is lowered after the transform settles; an alert is raised exactly when the invoked transform threw |
| Executor.ProcessTool | script.js:384-423 | a refused call changes nothing and runs nothing; a missing button leaves the flag raised and runs nothing; otherwise the transform runs while busy and the flag ends lowered, tool and files untouched, whether the transform completes or throws |
| Executor.LoadTool | script.js:93-94 | selecting a tool sets the current tool and leaves files and busy flag alone |
| Executor.HandleFiles | script.js:74-91 | the selection replaces the file set wholesale, even when the run is refused; a transform runs exactly when a tool is selected, nothing was busy, files were given and the button is present, and it sees the new selection with the flag raised; the alert is raised exactly when the invoked transform threw; the flag ends raised exactly when it was raised before or the run was stranded |
| Executor.DrawnFilesAsWritten | script.js:432-434 | the image-to-PDF loop draws its first k files from the selection it started with and the rest from a selection made while it awaited |
| Executor.MixedSelectionDrawn | script.js:432-434 | with two images selected and three more selected during the first load, the document holds images from both selections |
| Executor.AsWrittenDrawsSelectionWhenUnchanged | script.js:432-434 | without a selection during the run, the loop as written draws exactly the selection |
| Executor.Step | script.js:74-94 | selecting a tool changes only the current tool; a file selection always replaces the file set, and starts nothing when no tool is selected, a run is busy, no files were given or the switch matches no transform; from an idle state with a selected tool and files it strands the run when the button is missing, starts one awaited transform over the new files for a defined tool, and for an undefined tool raises the alert and lowers the flag within the same step; a settling transform lowers the flag and counts an alert exactly when it threw; settling with nothing awaited changes nothing |
| Executor.ReselectionKeepsCaptured | script.js:74-75 | corrected behaviour: a selection while a transform is awaited replaces the file set but not the files the awaited run captured |
| Executor.StepKeepsConsistent | script.js:384-423 | one user event or transform completion keeps "busy exactly while a run is awaited or stranded" and "every started transform but the awaited one has settled" |
| Executor.NoSecondRunWhileBusy | script.js:385-387 | selecting files while a transform is awaited starts no second transform and leaves the flag raised |
| Executor.SettlingClearsBusy | script.js:418-419 | when the awaited transform completes or throws, the busy flag is lowered |
| Executor.SessionStaysConsistent | script.js:384-423 | along every event sequence at most one transform is in flight and the busy flag says whether a run is in flight or stranded |
| Executor.StrandedStaysBusy | script.js:385-391 | once a run is stranded by a missing button, the flag stays raised and no transform starts again, along every event sequence |
| Executor.InitialIsConsistent | script.js:3-6 | the constructor's state is consistent: not busy, nothing pending |
| Compress.StripMetadata | script.js:523-532 | with the option checked, title, author, subject, producer and creator become empty, keywords empty and both dates the clock's readings; unchecked, nothing changes |
| Compress.StripIdempotent | script.js:523-532 | stripping twice with the same clock readings is stripping once |
| Compress.StripForgetsOriginal | script.js:523-532 | the stripped record does not depend on the document's metadata |
| Compress.Reduction | script.js:542-544 | defined exactly for a non-empty original; positive iff the file shrank, zero iff unchanged, at most 100, and 100 iff the result is empty |
| Compress.ReductionRoundTrip | script.js:544 | the compressed size is recovered from the original size and the reduction |
| Compress.ReductionAntitone | script.js:544 | a larger saved file never reports a larger reduction |
| Compress.CompressPdf | script.js:502-548 | without the library the run alerts and stops; otherwise the result is named compressed.pdf, its metadata stripped (with both clock readings as dates) or untouched as chosen, its reduction defined iff the original is non-empty, at most 100, positive iff the file shrank and zero iff unchanged |
| Compress.CompressPdfReportsSavedSize | script.js:542-544 | the reported reduction gives back the saved size |

## Findings

| source | as written | input that shows it | evidently intended | confidence | as-written member | corrected member |
|---|---|---|---|---|---|---|
| script.js:432-434 | the loop re-reads `this.currentFiles` after each awaited image load; the panel's drop area (script.js:151) still opens the file picker during a run, and `handleFiles` replaces `currentFiles` even when `processTool` then refuses | image-to-PDF with files [a, b]; while a loads, select [c, d, e]: the PDF holds a, d, e | the run converts the files selected when it started | medium, not executed | Executor.MixedSelectionDrawn | Executor.ReselectionKeepsCaptured |

The rest of the model follows the corrected behaviour. The session's awaited run holds the
files captured when it started. `PageFit.LayoutDocument` takes one sequence of images, fixed
for the whole run.

## Left out

- DOM and presentation: tool panels, listeners, modal, theme toggle, local storage, the process button's label and disabled state, the file list markup (script.js:10-72, 113-382, 633-650).
- The libraries' internals: jsPDF `addImage`/`output`, pdf-lib `load`/`save`, OpenCV GrabCut. Their results enter as parameters: image and page sizes, the saved size, the transform's outcome.
- The background-removal transform: its work is OpenCV calls and canvas drawing; its outcome is a parameter of the executor.
- Which panel `loadTool` leaves in the page: it throws for identifiers without a panel getter, and the page's initial content is not part of this model, so whether the process button exists is a parameter (`buttonPresent`).
- The empty image-compression loop and the unused image-quality reading in `compressPDF` (script.js:512-520); they have no effect.
- Canvas drawing, `toBlob` encoding and output format choice, and the `loadImage` FileReader promise. A failing image load is covered only as a transform that throws.
- The object-URL lifecycle of `createDownloadLink`, `formatBytes`, `toFixed(1)` formatting of the reduction, and the service-worker registration.
- IEEE-754 doubles: all arithmetic is exact. Negative zero from `parseInt("-0")` is not distinguished from zero.
- `parseInt` returning NaN for non-numeric text: numeric controls are modelled as already-parsed integers.
- PageFit.FitToPage: requires positive image and page sizes; a zero-sized image would make the code divide by zero.
- Resize.ComputeSize: requires a positive image size, as a decoded image has at least one pixel per side.
- The page count of an empty document (jsPDF starts with one page): `processTool` never runs a transform without files.
- Clock readings for the two metadata dates are parameters.

=== FILE: compress.dfy ===
/** Bookkeeping of the PDF compressor (`compressPDF`, script.js:501-548): the optional metadata
    strip and the size-reduction percentage. Loading and saving the document belong to the PDF
    library and are parameters here (the saved size is an input).
 */
module Compress {
  import opened Controls

  /** The document information fields the compressor may reset. Dates are clock readings in
      milliseconds. */
  datatype Metadata = Metadata(
    title: string,
    author: string,
    subject: string,
    keywords: seq<string>,
    producer: string,
    creator: string,
    creationDate: int,
    modificationDate: int)

  /** Every text field empty and no keywords. */
  predicate Blank(m: Metadata) {
    m.title == "" && m.author == "" && m.subject == "" && m.keywords == []
    && m.producer == "" && m.creator == ""
  }

  /** The "remove metadata" option. The two dates come from two separate clock readings. */
  function StripMetadata(m: Metadata, removeChecked: bool, creationNow: int, modificationNow: int): (r: Metadata)
    ensures removeChecked ==> Blank(r) && r.creationDate == creationNow && r.modificationDate == modificationNow
    ensures !removeChecked ==> r == m
  {
    if removeChecked then
      Metadata("", "", "", [], "", "", creationNow, modificationNow)
    else
      m
  }

  /** Stripping twice with the same clock readings is stripping once. */
  lemma StripIdempotent(m: Metadata, removeChecked: bool, c: int, d: int)
    ensures StripMetadata(StripMetadata(m, removeChecked, c, d), removeChecked, c, d)
            == StripMetadata(m, removeChecked, c, d)
  {
  }

  /** The stripped record depends on the clock alone, not on what the document held. */
  lemma StripForgetsOriginal(m1: Metadata, m2: Metadata, c: int, d: int)
    ensures StripMetadata(m1, true, c, d) == StripMetadata(m2, true, c, d)
  {
  }

  /** `(originalSize - compressedSize) / originalSize * 100`, before `toFixed(1)`. With an empty
      original the browser yields -Infinity or NaN, which is `None` here. */
  function Reduction(originalSize: nat, compressedSize: nat): (r: Option<real>)
    ensures r.Some? <==> originalSize > 0
    ensures r.Some? ==> (r.value > 0.0 <==> compressedSize < originalSize)
    ensures r.Some? ==> (r.value == 0.0 <==> compressedSize == originalSize)
    ensures r.Some? ==> r.value <= 100.0
    ensures r.Some? ==> (r.value == 100.0 <==> compressedSize == 0)
  {
    if originalSize == 0 then None
    else
      var o := originalSize as real;
      var c := compressedSize as real;
      var pct := (o - c) / o * 100.0;
      assert pct * o == (o - c) * 100.0;
      Some(pct)
  }

  /** The percentage determines the compressed size: it can be recovered from the original
      size and the reported reduction. */
  lemma ReductionRoundTrip(originalSize: nat, compressedSize: nat)
    requires originalSize > 0
    ensures compressedSize as real
            == originalSize as real * (1.0 - Reduction(originalSize, compressedSize).value / 100.0)
  {
  }

  /** A larger saved file never reports a larger reduction. */
  lemma ReductionAntitone(originalSize: nat, c1: nat, c2: nat)
    requires originalSize > 0 && c1 <= c2
    ensures Reduction(originalSize, c2).value <= Reduction(originalSize, c1).value
  {
    var o := originalSize as real;
    assert (o - c2 as real) / o <= (o - c1 as real) / o;
  }

  /** What a compressor run leaves behind. When the PDF library is not loaded the function
      alerts and returns before reading the file; nothing is thrown. */
  datatype CompressResult =
    | LibraryMissing
    | Compressed(metadata: Metadata, fileName: string, reduction: Option<real>)

  /** The compressor's run, with the library's load and save as inputs: the document's
      metadata as loaded and the size of the saved bytes. */
  function CompressPdf(libraryLoaded: bool, loaded: Metadata, removeChecked: bool,
                       creationNow: int, modificationNow: int,
                       originalSize: nat, savedSize: nat): (r: CompressResult)
    ensures !libraryLoaded <==> r.LibraryMissing?
    ensures r.Compressed? ==> r.fileName == "compressed.pdf"
    ensures r.Compressed? && removeChecked ==>
              && Blank(r.metadata)
              && r.metadata.creationDate == creationNow
              && r.metadata.modificationDate == modificationNow
    ensures r.Compressed? && !removeChecked ==> r.metadata == loaded
    ensures r.Compressed? ==> (r.reduction.Some? <==> originalSize > 0)
    ensures r.Compressed? && originalSize > 0 ==> r.reduction.value <= 100.0
    ensures r.Compressed? && originalSize > 0 ==> (r.reduction.value > 0.0 <==> savedSize < originalSize)
    ensures r.Compressed? && originalSize > 0 ==> (r.reduction.value == 0.0 <==> savedSize == originalSize)
  {
    if !libraryLoaded then LibraryMissing
    else
      Compressed(StripMetadata(loaded, removeChecked, creationNow, modificationNow),
                 "compressed.pdf", Reduction(originalSize, savedSize))
  }

  /** The reported reduction determines the saved size: a loaded library and a non-empty
      original give back the size of the saved bytes. */
  lemma CompressPdfReportsSavedSize(loaded: Metadata, removeChecked: bool, creationNow: int,
                                    modificationNow: int, originalSize: nat, savedSize: nat)
    requires originalSize > 0
    ensures var r := CompressPdf(true, loaded, removeChecked, creationNow, modificationNow, originalSize, savedSize);
            savedSize as real == originalSize as real * (1.0 - r.reduction.value / 100.0)
  {
    ReductionRoundTrip(originalSize, savedSize);
  }
}

=== FILE: controls.dfy ===
/** Values read from the tool panel's form controls.

    The application reads every option as `document.getElementById(id)?.value || fallback`:
    a control that is absent, or whose text is empty, yields the fallback. Here a control's
    reading is an `Option`: `None` stands for "absent or empty", `Some(v)` for the value it holds
    (for numeric controls, the integer `parseInt` produced).
 */
module Controls {

  datatype Option<+T> = None | Some(value: T)

  /** The `?.value || fallback` idiom for a numeric control. */
  function NumberOr(reading: Option<int>, fallback: int): (n: int)
    ensures reading.None? ==> n == fallback
    ensures reading.Some? ==> n == reading.value
  {
    match reading
    case None => fallback
    case Some(v) => v
  }

  /** The `?.value || fallback` idiom for a text control: the empty string is falsy too. */
  function TextOr(reading: Option<string>, fallback: string): (t: string)
    ensures t == fallback || (reading == Some(t) && t != "")
    ensures reading.Some? && reading.value != "" ==> t == reading.value
  {
    if reading.Some? && reading.value != "" then reading.value else fallback
  }
}

=== FILE: executor.dfy ===
/** The single-flight transform executor: `handleFiles`, `loadTool` and `processTool`
    (script.js:74-111, script.js:384-423).

    The application object holds `{currentTool, currentFiles, isProcessing}`. A run is refused
    while another is busy or when no files are selected. Otherwise the busy flag is raised and
    the process button is looked up and relabelled (script.js:388-391, outside the `try`); if the
    button is absent, reading its label throws and the flag stays raised. When the button is present,
    the current tool's transform is awaited, a thrown error becomes one alert, and the `finally`
    clause lowers the flag. The transforms themselves are not modelled: whether a defined one
    completes or throws is a parameter.
 */
module Executor {
  import opened Controls

  /** A selected file as the intake sees it; its bytes are never inspected here. */
  datatype File = File(name: string, size: nat, mimeType: string)

  datatype AppState = AppState(currentTool: Option<string>, currentFiles: seq<File>, isProcessing: bool)

  /** The state the constructor establishes. */
  const Initial: AppState := AppState(None, [], false)

  /** The transforms `processTool`'s switch dispatches to. */
  datatype Transform = ImageToPdf | ResizeImage | CompressPdf | RemoveBackground | PdfToImages | CompressImage

  /** How an awaited transform ended. */
  datatype Outcome = Completed | Threw

  /** What the executor itself reports: nothing, or the one failure alert of its `catch`. */
  datatype Notice = Quiet | FailureAlert

  const FailureMessage: string := "Failed to process files. Please try again."

  /** The tool identifier each transform is registered under. */
  function ToolId(t: Transform): string {
    match t
    case ImageToPdf => "image-to-pdf"
    case ResizeImage => "image-resizer"
    case CompressPdf => "pdf-compressor"
    case RemoveBackground => "bg-remover"
    case PdfToImages => "pdf-to-images"
    case CompressImage => "image-compressor"
  }

  /** Whether the application object has a method for the transform. `convertPDFToImages` and
      `compressImage` are called by the switch but never defined. */
  predicate Defined(t: Transform) {
    match t
    case PdfToImages => false
    case CompressImage => false
    case _ => true
  }

  /** How a dispatched transform ends: calling an undefined method throws a TypeError inside
      the `try`, whatever the environment would have done. */
  function Settle(t: Transform, outcome: Outcome): (o: Outcome)
    ensures !Defined(t) ==> o == Threw
    ensures Defined(t) ==> o == outcome
  {
    if Defined(t) then outcome else Threw
  }

  /** `processTool`'s switch: the transform for the current tool, if it has one. Tools such as
      "document-scanner" and "pdf-merger" can be selected but fall through the switch. */
  function Dispatch(tool: Option<string>): (t: Option<Transform>)
    ensures t.Some? ==> tool == Some(ToolId(t.value))
    ensures tool.None? ==> t.None?
  {
    match tool
    case None => None
    case Some(id) =>
      if id == "image-to-pdf" then Some(ImageToPdf)
      else if id == "image-resizer" then Some(ResizeImage)
      else if id == "pdf-compressor" then Some(CompressPdf)
      else if id == "bg-remover" then Some(RemoveBackground)
      else if id == "pdf-to-images" then Some(PdfToImages)
      else if id == "image-compressor" then Some(CompressImage)
      else None
  }

  /** Every transform is reached from exactly its own identifier. */
  lemma DispatchFindsEveryTransform(t: Transform, id: string)
    ensures Dispatch(Some(ToolId(t))) == Some(t)
    ensures Dispatch(Some(id)) == Some(t) <==> id == ToolId(t)
  {
  }

  /** JavaScript truthiness of `this.currentTool`: set and not the empty string. */
  predicate ToolSelected(s: AppState) {
    s.currentTool.Some? && s.currentTool.value != ""
  }

  /** The gate at the head of `processTool`. */
  predicate MayRun(s: AppState) {
    !s.isProcessing && |s.currentFiles| > 0
  }

  /** `processTool` up to the transform's `await`: refused at the gate, stranded by a missing
      process button (the flag is already raised and no `finally` applies), or started. */
  datatype Start = Refused | Stranded(busy: AppState) | Started(busy: AppState, transform: Option<Transform>)

  /** `buttonPresent` says whether `#process-btn` is in the page; `loadTool` renders a panel
      holding one only for "image-to-pdf", "image-resizer" and "pdf-compressor"; it throws for
      the five identifiers whose panel getter is not defined, leaving whatever panel was shown
      before. */
  function Begin(s: AppState, buttonPresent: bool): (r: Start)
    ensures r.Refused? <==> !MayRun(s)
    ensures r.Stranded? <==> MayRun(s) && !buttonPresent
    ensures !r.Refused? ==> r.busy.isProcessing
    ensures !r.Refused? ==> r.busy.currentTool == s.currentTool && r.busy.currentFiles == s.currentFiles
    ensures r.Started? ==> r.transform == Dispatch(s.currentTool)
  {
    if s.isProcessing || |s.currentFiles| == 0 then Refused
    else if !buttonPresent then Stranded(s.(isProcessing := true))
    else Started(s.(isProcessing := true), Dispatch(s.currentTool))
  }

  /** The `catch` and `finally` clauses after the awaited transform settles. */
  function Finish(s: AppState, transform: Option<Transform>, outcome: Outcome): (r: (AppState, Notice))
    ensures !r.0.isProcessing
    ensures r.0.currentTool == s.currentTool && r.0.currentFiles == s.currentFiles
    ensures r.1 == FailureAlert <==> transform.Some? && Settle(transform.value, outcome) == Threw
  {
    var notice := if transform.Some? && Settle(transform.value, outcome) == Threw then FailureAlert else Quiet;
    (s.(isProcessing := false), notice)
  }

  /** One whole call of `processTool`, run to completion: the state the transform runs in (if
      any), the transform invoked (if any), the state afterwards and the alert raised. */
  datatype Run = Run(during: Option<AppState>, invoked: Option<Transform>, after: AppState, notice: Notice)

  function ProcessTool(s: AppState, buttonPresent: bool, outcome: Outcome): (r: Run)
    ensures !MayRun(s) ==> r == Run(None, None, s, Quiet)
    ensures MayRun(s) && buttonPresent ==>
              && r.during.Some? && r.during.value.isProcessing
              && r.during.value.currentTool == s.currentTool
              && r.during.value.currentFiles == s.currentFiles
              && r.invoked == Dispatch(s.currentTool)
              && !r.after.isProcessing
    ensures MayRun(s) && !buttonPresent ==> r.invoked.None? && r.after.isProcessing && r.notice == Quiet
    ensures r.after.currentTool == s.currentTool && r.after.currentFiles == s.currentFiles
    ensures r.invoked.Some? ==> r.during.Some? && r.during.value.isProcessing
    ensures r.notice == FailureAlert <==> r.invoked.Some? && Settle(r.invoked.value, outcome) == Threw
  {
    match Begin(s, buttonPresent)
    case Refused => Run(None, None, s, Quiet)
    case Stranded(busy) => Run(None, None, busy, Quiet)
    case Started(busy, t) =>
      var (after, notice) := Finish(busy, t, outcome);
      Run(Some(busy), t, after, notice)
  }

  /** The PDF-to-images and image-compressor tools always end in the failure alert, whatever
      the environment would do: their methods do not exist. */
  lemma UndefinedToolsAlwaysFail(s: AppState, outcome: Outcome)
    requires MayRun(s) && (s.currentTool == Some("pdf-to-images") || s.currentTool == Some("image-compressor"))
    ensures ProcessTool(s, true, outcome).notice == FailureAlert
  {
  }

  /** `loadTool`: only the current tool changes (the rest of its body renders the panel). */
  function LoadTool(s: AppState, id: string): (r: AppState)
    ensures r.currentTool == Some(id)
    ensures r.currentFiles == s.currentFiles && r.isProcessing == s.isProcessing
  {
    s.(currentTool := Some(id))
  }

  /** `handleFiles`: the selection replaces the file set wholesale, before and regardless of
      the gate, and a run follows exactly when a tool is selected, nothing is busy, files
      were given and the process button is present. */
  function HandleFiles(s: AppState, files: seq<File>, buttonPresent: bool, outcome: Outcome): (r: Run)
    ensures r.after.currentFiles == files
    ensures r.after.currentTool == s.currentTool
    ensures !ToolSelected(s) ==> r == Run(None, None, s.(currentFiles := files), Quiet)
    ensures r.invoked.Some? ==> ToolSelected(s) && !s.isProcessing && |files| > 0 && buttonPresent
    ensures r.notice == FailureAlert <==> r.invoked.Some? && Settle(r.invoked.value, outcome) == Threw
    ensures ToolSelected(s) && !s.isProcessing && |files| > 0 && buttonPresent ==>
              && r.during.Some? && r.invoked == Dispatch(s.currentTool)
              && r.during.value.currentFiles == files && r.during.value.isProcessing
    ensures r.after.isProcessing <==>
              s.isProcessing || (ToolSelected(s) && |files| > 0 && !buttonPresent)
  {
    var s' := s.(currentFiles := files);
    if ToolSelected(s') then ProcessTool(s', buttonPresent, outcome) else Run(None, None, s', Quiet)
  }

  // ---------------------------------------------------------------------------------------
  // Which files the image-to-PDF transform draws. Its loop re-reads `this.currentFiles` at
  // every iteration, after awaiting the previous image, and the panel's drop area stays
  // clickable during a run, so `handleFiles` can replace the selection in mid-loop.

  /** The files drawn as written, when the selection changes from `before` to `after` while the
      image of iteration k - 1 is awaited: the first k come from one selection, the rest (if
      `after` is long enough to keep the loop going) from the other. */
  function DrawnFilesAsWritten(before: seq<File>, after: seq<File>, k: nat): (r: seq<File>)
    requires 0 < k <= |before|
    ensures |r| == if k < |after| then |after| else k
    ensures forall i :: 0 <= i < k ==> r[i] == before[i]
    ensures forall i :: k <= i < |r| ==> r[i] == after[i]
  {
    before[..k] + if k < |after| then after[k..] else []
  }

  /** Two images selected, the second selection of three made while the first is loading:
      the document holds the first image of one selection and the last two of the other. */
  lemma MixedSelectionDrawn()
    ensures var a := File("a.jpg", 1, "image/jpeg");
            var b := File("b.jpg", 2, "image/jpeg");
            var c := File("c.jpg", 3, "image/jpeg");
            var d := File("d.jpg", 4, "image/jpeg");
            var e := File("e.jpg", 5, "image/jpeg");
            var r := DrawnFilesAsWritten([a, b], [c, d, e], 1);
            r == [a, d, e] && r != [a, b] && r != [c, d, e]
  {
  }

  /** Without a selection during the run, the loop as written draws exactly the selection. */
  lemma AsWrittenDrawsSelectionWhenUnchanged(files: seq<File>, k: nat)
    requires 0 < k <= |files|
    ensures DrawnFilesAsWritten(files, files, k) == files
  {
  }

  // ---------------------------------------------------------------------------------------
  // Interleaving. `processTool` is async: while a transform is awaited, further user events
  // are handled. A session records what is in flight and counts runs. An awaited run keeps
  // the file set it started with: the intended behaviour, which the image-to-PDF loop as
  // written does not have (see DrawnFilesAsWritten).

  /** Nothing in flight; a transform awaited over the files captured when it started; or a run
      stranded by a missing process button, whose raised flag nothing lowers. */
  datatype Flight = Idle | Awaiting(transform: Transform, files: seq<File>) | StrandedRun

  datatype Event =
    | SelectTool(id: string)
    | SelectFiles(files: seq<File>, buttonPresent: bool)
    | TransformSettled(outcome: Outcome)

  datatype Session = Session(app: AppState, flight: Flight, started: nat, settled: nat, alerts: nat)

  const Start0: Session := Session(Initial, Idle, 0, 0, 0)

  /** The busy flag is raised exactly while a run is in flight or stranded, and every started
      transform but the awaited one has settled. */
  predicate Consistent(s: Session) {
    && (s.app.isProcessing <==> !s.flight.Idle?)
    && s.started == s.settled + (if s.flight.Awaiting? then 1 else 0)
  }

  function Step(s: Session, e: Event): (r: Session)
    ensures r.started >= s.started && r.settled >= s.settled
    ensures e.SelectFiles? ==> r.app.currentFiles == e.files
    ensures e.SelectTool? ==> r == s.(app := s.app.(currentTool := Some(e.id)))
    ensures e.SelectFiles? && (!ToolSelected(s.app) || s.app.isProcessing || |e.files| == 0
                               || (e.buttonPresent && Dispatch(s.app.currentTool).None?)) ==>
              r == s.(app := s.app.(currentFiles := e.files))
    ensures e.SelectFiles? && ToolSelected(s.app) && !s.app.isProcessing && |e.files| > 0
            && e.buttonPresent && Dispatch(s.app.currentTool).Some?
            && Defined(Dispatch(s.app.currentTool).value) ==>
              && r.flight == Awaiting(Dispatch(s.app.currentTool).value, e.files)
              && r.started == s.started + 1 && r.settled == s.settled && r.alerts == s.alerts
              && r.app == s.app.(currentFiles := e.files, isProcessing := true)
    ensures e.SelectFiles? && ToolSelected(s.app) && !s.app.isProcessing && |e.files| > 0
            && e.buttonPresent && Dispatch(s.app.currentTool).Some?
            && !Defined(Dispatch(s.app.currentTool).value) ==>
              && r.flight.Idle? && r.app == s.app.(currentFiles := e.files, isProcessing := false)
              && r.started == s.started + 1 && r.settled == s.settled + 1
              && r.alerts == s.alerts + 1
    ensures e.SelectFiles? && ToolSelected(s.app) && !s.app.isProcessing && |e.files| > 0
            && !e.buttonPresent ==>
              && r.flight.StrandedRun? && r.app == s.app.(currentFiles := e.files, isProcessing := true)
              && r.started == s.started && r.settled == s.settled && r.alerts == s.alerts
    ensures e.TransformSettled? && s.flight.Awaiting? ==>
              && r.flight.Idle? && !r.app.isProcessing && r.settled == s.settled + 1
              && r.app.currentFiles == s.app.currentFiles
              && r.alerts == s.alerts + (if Settle(s.flight.transform, e.outcome) == Threw then 1 else 0)
    ensures e.TransformSettled? && !s.flight.Awaiting? ==> r == s
  {
    match e
    case SelectTool(id) => s.(app := LoadTool(s.app, id))
    case SelectFiles(files, buttonPresent) =>
      var app := s.app.(currentFiles := files);
      if !ToolSelected(app) then s.(app := app)
      else
        (match Begin(app, buttonPresent)
         case Refused => s.(app := app)
         case Stranded(busy) => s.(app := busy, flight := StrandedRun)
         case Started(busy, None) =>
           // nothing is awaited: the `finally` clause runs before processTool returns
           s.(app := Finish(busy, None, Completed).0)
         case Started(busy, Some(t)) =>
           if Defined(t) then
             s.(app := busy, flight := Awaiting(t, files), started := s.started + 1)
           else
             // calling the missing method throws before anything is awaited: the `catch` and
             // `finally` clauses run before processTool returns
             s.(app := Finish(busy, Some(t), Completed).0, flight := Idle, started := s.started + 1,
                settled := s.settled + 1, alerts := s.alerts + 1))
    case TransformSettled(outcome) =>
      match s.flight
      case Awaiting(t, _) =>
        var (app, notice) := Finish(s.app, Some(t), outcome);
        s.(app := app, flight := Idle, settled := s.settled + 1,
           alerts := s.alerts + if notice == FailureAlert then 1 else 0)
      case _ => s
  }

  function RunEvents(s: Session, events: seq<Event>): Session
    decreases |events|
  {
    if |events| == 0 then s else RunEvents(Step(s, events[0]), events[1..])
  }

  lemma StepKeepsConsistent(s: Session, e: Event)
    requires Consistent(s)
    ensures Consistent(Step(s, e))
  {
  }

  /** Selecting files while a transform is awaited never starts a second one. */
  lemma NoSecondRunWhileBusy(s: Session, files: seq<File>, buttonPresent: bool)
    requires Consistent(s) && s.flight.Awaiting?
    ensures Step(s, SelectFiles(files, buttonPresent)).flight == s.flight
    ensures Step(s, SelectFiles(files, buttonPresent)).started == s.started
    ensures Step(s, SelectFiles(files, buttonPresent)).app.isProcessing
  {
  }

  /** A selection made while a transform is awaited replaces the application's file set, but
      the awaited run keeps the files it captured. */
  lemma ReselectionKeepsCaptured(s: Session, files: seq<File>, buttonPresent: bool)
    requires Consistent(s) && s.flight.Awaiting?
    ensures Step(s, SelectFiles(files, buttonPresent)).app.currentFiles == files
    ensures Step(s, SelectFiles(files, buttonPresent)).flight.files == s.flight.files
  {
  }

  /** When the awaited transform settles, completed or thrown, the busy flag is lowered. */
  lemma SettlingClearsBusy(s: Session, outcome: Outcome)
    requires Consistent(s) && s.flight.Awaiting?
    ensures !Step(s, TransformSettled(outcome)).app.isProcessing
    ensures Step(s, TransformSettled(outcome)).flight.Idle?
  {
  }

  /** Along every sequence of user events, at most one transform is in flight and the busy flag
      says exactly whether a run is in flight or stranded. */
  lemma {:induction false} SessionStaysConsistent(s: Session, events: seq<Event>)
    requires Consistent(s)
    ensures Consistent(RunEvents(s, events))
    ensures RunEvents(s, events).started <= RunEvents(s, events).settled + 1
    decreases |events|
  {
    if |events| > 0 {
      StepKeepsConsistent(s, events[0]);
      SessionStaysConsistent(Step(s, events[0]), events[1..]);
    }
  }

  /** Once a run is stranded by a missing process button, the flag stays raised and no
      transform ever starts again, whatever the user does. */
  lemma {:induction false} StrandedStaysBusy(s: Session, events: seq<Event>)
    requires Consistent(s) && s.flight.StrandedRun?
    ensures RunEvents(s, events).flight.StrandedRun?
    ensures RunEvents(s, events).app.isProcessing
    ensures RunEvents(s, events).started == s.started
    decreases |events|
  {
    if |events| > 0 {
      StepKeepsConsistent(s, events[0]);
      StrandedStaysBusy(Step(s, events[0]), events[1..]);
    }
  }

  lemma InitialIsConsistent()
    ensures Consistent(Start0)
  {
  }
}

=== FILE: geometry.dfy ===
/** Sizes in exact real arithmetic; the browser's doubles are abstracted away. */
module Geometry {

  /** A width and a height: an image, a PDF page or a requested output box. */
  datatype Size = Size(w: real, h: real)

  predicate Positive(s: Size) {
    s.w > 0.0 && s.h > 0.0
  }

  /** Two sizes have the same width-to-height ratio (stated without division). */
  predicate SameAspect(a: Size, b: Size) {
    a.w * b.h == a.h * b.w
  }
}

=== FILE: page_fit.dfy ===
/** Image-to-PDF page placement (`convertImagesToPDF`, script.js:427-456).

    Each image is scaled to the page width; if the scaled height overflows the page it is
    rescaled to the page height instead; the result is centred on both axes. One page per image,
    in input order.
 */
module PageFit {
  import opened Geometry

  /** Where `addImage` draws an image: top-left corner and drawn size. */
  datatype Placement = Placement(x: real, y: real, w: real, h: real)

  function DrawnSize(p: Placement): Size {
    Size(p.w, p.h)
  }

  /** The drawn box lies within the page on both axes. */
  predicate InsidePage(p: Placement, page: Size) {
    0.0 <= p.x && p.x + p.w <= page.w && 0.0 <= p.y && p.y + p.h <= page.h
  }

  /** Equal margins left and right, top and bottom. */
  predicate Centred(p: Placement, page: Size) {
    p.x == page.w - (p.x + p.w) && p.y == page.h - (p.y + p.h)
  }

  /** An independent description of the intended placement: the image keeps its proportions,
      stays on the page, touches the page on at least one axis and is centred. */
  predicate IsBestFit(img: Size, page: Size, p: Placement) {
    && p.w > 0.0 && p.h > 0.0
    && SameAspect(DrawnSize(p), img)
    && InsidePage(p, page)
    && (p.w == page.w || p.h == page.h)
    && Centred(p, page)
  }

  function Centre(page: Size, width: real, height: real): (p: Placement)
    ensures DrawnSize(p) == Size(width, height)
    ensures Centred(p, page)
  {
    Placement((page.w - width) / 2.0, (page.h - height) / 2.0, width, height)
  }

  /** The placement computed for one image on one page. */
  function FitToPage(img: Size, page: Size): (p: Placement)
    requires Positive(img) && Positive(page)
    ensures 0.0 < p.w <= page.w && 0.0 < p.h <= page.h
    ensures p.w == page.w || p.h == page.h
    ensures SameAspect(DrawnSize(p), img)
    ensures Centred(p, page)
    ensures InsidePage(p, page)
  {
    var height := (img.h * page.w) / img.w;
    if height > page.h then
      var width := (img.w * page.h) / img.h;
      assert width * img.h == img.w * page.h;
      assert width < page.w by {
        assert img.h * page.w > page.h * img.w;
        assert width * img.h < page.w * img.h;
      }
      Centre(page, width, page.h)
    else
      assert height * img.w == img.h * page.w;
      Centre(page, page.w, height)
  }

  /** Fitting is as large as possible: no uniformly scaled copy of the image that fits on the
      page is wider or taller than the computed placement. */
  lemma FitIsLargest(img: Size, page: Size, k: real)
    requires Positive(img) && Positive(page)
    requires k > 0.0 && img.w * k <= page.w && img.h * k <= page.h
    ensures img.w * k <= FitToPage(img, page).w
    ensures img.h * k <= FitToPage(img, page).h
  {
  }

  /** The computed placement is exactly the best fit, and the best fit is unique. */
  lemma FitIsBestFit(img: Size, page: Size, p: Placement)
    requires Positive(img) && Positive(page)
    ensures IsBestFit(img, page, p) <==> p == FitToPage(img, page)
  {
    var f := FitToPage(img, page);
    if IsBestFit(img, page, p) {
      SameSizeWhenTouching(img, page, p, f);
    }
  }

  /** Two best fits are the same placement: a uniformly scaled copy that is narrower than
      another is also shorter, so it cannot touch the page on either axis. */
  lemma SameSizeWhenTouching(img: Size, page: Size, p: Placement, q: Placement)
    requires Positive(img) && Positive(page)
    requires IsBestFit(img, page, p) && IsBestFit(img, page, q)
    ensures p == q
  {
    if p.w < q.w {
      assert false;
    } else if q.w < p.w {
      assert false;
    }
    assert p.h * img.w == q.h * img.w;
  }

  /** The whole document: one placement per image, in input order, all on the same page size.
      `new jsPDF()` takes its default page; the page-size and orientation controls are never
      passed to it, so the page is a parameter here. */
  method LayoutDocument(images: seq<Size>, page: Size) returns (pages: seq<Placement>)
    requires Positive(page)
    requires forall i :: 0 <= i < |images| ==> Positive(images[i])
    ensures |pages| == |images|
    ensures forall i :: 0 <= i < |pages| ==> IsBestFit(images[i], page, pages[i])
  {
    pages := [];
    var i := 0;
    while i < |images|
      invariant 0 <= i <= |images|
      invariant |pages| == i
      invariant forall j :: 0 <= j < i ==> IsBestFit(images[j], page, pages[j])
    {
      var p := FitToPage(images[i], page);
      FitIsBestFit(images[i], page, p);
      pages := pages + [p];
      i := i + 1;
    }
  }

  /** A 1000 x 500 image on a 595 x 842 page. */
  lemma LandscapeOnPortraitPage()
    ensures FitToPage(Size(1000.0, 500.0), Size(595.0, 842.0)) == Placement(0.0, 272.25, 595.0, 297.5)
  {
    assert (500.0 * 595.0) / 1000.0 == 297.5;
    assert (842.0 - 297.5) / 2.0 == 272.25;
  }
}

=== FILE: resize.dfy ===
/** Output dimensions of the image resizer (`resizeImage`, script.js:458-486).

    Three modes are offered: a percentage scale, explicit width and height with an optional
    aspect-ratio lock, and presets. The code computes sizes only for the first two; in preset
    mode (or any other mode value) `newWidth` and `newHeight` stay undefined, which is `None` here.
    Products and quotients are exact: the code does not round them.
 */
module Resize {
  import opened Controls
  import opened Geometry
  import PageFit

  /** The resizer's form controls as read at the start of a run. */
  datatype ResizeControls = ResizeControls(
    mode: Option<string>,          // #resize-mode
    scalePercent: Option<int>,     // #scale-percent
    width: Option<int>,            // #width
    height: Option<int>,           // #height
    maintainAspect: bool)          // #maintain-aspect, unchecked when absent

  const DefaultMode: string := "percentage"
  const DefaultPercent: int := 100
  const DefaultWidth: int := 800
  const DefaultHeight: int := 600

  /** Percentage mode: both sides multiplied by percent / 100. */
  function ScaleBy(img: Size, percent: int): (r: Size)
    ensures SameAspect(r, img)
    ensures r.w * 100.0 == img.w * percent as real
    ensures r.h * 100.0 == img.h * percent as real
  {
    var scale := percent as real / 100.0;
    Size(img.w * scale, img.h * scale)
  }

  /** `w / h > aspect` as the browser evaluates it for integers w, h and a positive finite
      aspect: a zero divisor gives +Infinity (w > 0), -Infinity (w < 0) or NaN (w == 0), and a
      comparison with NaN is false. */
  function RatioExceeds(w: int, h: int, aspect: real): (b: bool)
    requires aspect > 0.0
    ensures h > 0 ==> (b <==> w as real > aspect * h as real)
    ensures h < 0 ==> (b <==> w as real < aspect * h as real)
    ensures h == 0 ==> (b <==> w > 0)
  {
    if h == 0 then w > 0 else (w as real) / (h as real) > aspect
  }

  /** Aspect-ratio lock: whichever requested side is too long for the image's proportions is
      recomputed from the other one. */
  function LockAspect(img: Size, w: int, h: int): (r: Size)
    requires Positive(img)
    ensures SameAspect(r, img)
    ensures RatioExceeds(w, h, img.w / img.h) ==> r.h == h as real
    ensures !RatioExceeds(w, h, img.w / img.h) ==> r.w == w as real
    ensures w > 0 && h > 0 ==> 0.0 < r.w <= w as real && 0.0 < r.h <= h as real
  {
    var aspect := img.w / img.h;
    if RatioExceeds(w, h, aspect) then
      Size(h as real * aspect, h as real)
    else
      assert (w as real / aspect) * img.w == w as real * img.h;
      Size(w as real, w as real / aspect)
  }

  /** Dimensions mode: the requested width and height, optionally aspect-locked. */
  function Dimensions(img: Size, w: int, h: int, lock: bool): (r: Size)
    requires Positive(img)
    ensures !lock ==> r == Size(w as real, h as real)
    ensures lock ==> SameAspect(r, img)
    ensures lock && RatioExceeds(w, h, img.w / img.h) ==> r.h == h as real
    ensures lock && !RatioExceeds(w, h, img.w / img.h) ==> r.w == w as real
    ensures lock && w > 0 && h > 0 ==> 0.0 < r.w <= w as real && 0.0 < r.h <= h as real
  {
    if lock then LockAspect(img, w, h) else Size(w as real, h as real)
  }

  /** The exact size `drawImage` is given (the canvas's own width and height are these
      truncated to integers), or `None` when the mode computes none. */
  function ComputeSize(img: Size, c: ResizeControls): (r: Option<Size>)
    requires Positive(img)
    ensures r.Some? <==> TextOr(c.mode, DefaultMode) in {"percentage", "dimensions"}
    ensures c.mode == Some("preset") ==> r.None?
    ensures TextOr(c.mode, DefaultMode) == "percentage" ==>
              r.Some? && SameAspect(r.value, img) &&
              r.value.w * 100.0 == img.w * NumberOr(c.scalePercent, DefaultPercent) as real
    ensures TextOr(c.mode, DefaultMode) == "dimensions" && !c.maintainAspect ==>
              r == Some(Size(NumberOr(c.width, DefaultWidth) as real, NumberOr(c.height, DefaultHeight) as real))
    ensures TextOr(c.mode, DefaultMode) == "dimensions" && c.maintainAspect ==>
              && r.Some? && SameAspect(r.value, img)
              && (RatioExceeds(NumberOr(c.width, DefaultWidth), NumberOr(c.height, DefaultHeight), img.w / img.h)
                  ==> r.value.h == NumberOr(c.height, DefaultHeight) as real)
              && (!RatioExceeds(NumberOr(c.width, DefaultWidth), NumberOr(c.height, DefaultHeight), img.w / img.h)
                  ==> r.value.w == NumberOr(c.width, DefaultWidth) as real)
  {
    var mode := TextOr(c.mode, DefaultMode);
    if mode == "percentage" then
      Some(ScaleBy(img, NumberOr(c.scalePercent, DefaultPercent)))
    else if mode == "dimensions" then
      Some(Dimensions(img, NumberOr(c.width, DefaultWidth), NumberOr(c.height, DefaultHeight), c.maintainAspect))
    else
      None
  }

  /** With every control absent the resizer keeps the image's size (100 percent). */
  lemma DefaultsKeepSize(img: Size)
    requires Positive(img)
    ensures ComputeSize(img, ResizeControls(None, None, None, None, false)) == Some(img)
  {
  }

  /** Scaling by p percent and then by q percent, with p * q == 10000 (50 then 200, say),
      restores the original size exactly. */
  lemma ScaleRoundTrip(img: Size, p: int, q: int)
    requires p * q == 10000
    ensures ScaleBy(ScaleBy(img, p), q) == img
  {
  }

  /** The aspect lock places the image in the requested box exactly as the PDF converter places
      an image on a page: the same scale-to-width-unless-too-tall rule. */
  lemma LockedIsPageFit(img: Size, w: int, h: int)
    requires Positive(img) && w > 0 && h > 0
    ensures LockAspect(img, w, h) == PageFit.DrawnSize(PageFit.FitToPage(img, Size(w as real, h as real)))
  {
  }

  /** In dimensions mode with the lock checked and positive requests, the resizer's output is
      the size the PDF converter would give the image on a page of the requested size. */
  lemma ComputeSizeLockedIsPageFit(img: Size, c: ResizeControls)
    requires Positive(img)
    requires TextOr(c.mode, DefaultMode) == "dimensions" && c.maintainAspect
    requires NumberOr(c.width, DefaultWidth) > 0 && NumberOr(c.height, DefaultHeight) > 0
    ensures var box := Size(NumberOr(c.width, DefaultWidth) as real, NumberOr(c.height, DefaultHeight) as real);
            ComputeSize(img, c) == Some(PageFit.DrawnSize(PageFit.FitToPage(img, box)))
  {
    LockedIsPageFit(img, NumberOr(c.width, DefaultWidth), NumberOr(c.height, DefaultHeight));
  }

  /** In percentage mode only the scale control matters: the dimension controls and the lock
      are ignored. */
  lemma PercentageIgnoresDimensionControls(img: Size, c1: ResizeControls, c2: ResizeControls)
    requires Positive(img)
    requires TextOr(c1.mode, DefaultMode) == "percentage" && TextOr(c2.mode, DefaultMode) == "percentage"
    requires NumberOr(c1.scalePercent, DefaultPercent) == NumberOr(c2.scalePercent, DefaultPercent)
    ensures ComputeSize(img, c1) == ComputeSize(img, c2)
  {
  }
}
